=== FILE: README.md ===
# Extraction task of the DESI spectroscopic pipeline, in Dafny

This project models the `TaskExtract` plugin of the desispec pipeline task
framework (`py/desispec/pipeline/tasks/extract.py`). An extraction task is
identified by the name fields `night`, `band`, `spec` and `expid`. The model
covers:

- the column schema of the task type;
- the camera key (`band` immediately followed by the spectrograph number) and
  the single frame file a task produces;
- the three dependencies (`input` from a `pix` task, `fibermap` from a
  `fibermap` task, `psf` from a `psfnight` task);
- the constant resource estimates (20 processes, 15 minutes);
- the six default options;
- the assembly of the final option map. The computed file paths are laid
  under the caller's runtime options, and those options first have their three
  per-band wavelength ranges collapsed into a single `wavelength` option for the
  task's band;
- the command line `desi_extract_spectra <tokens>`.

The code the plugin calls but does not define is passed in as the fields of
`Extract.Env`:

- the name decoder `name_split`, which returns `None` for a name it cannot
  decode;
- the task-type registry `task_classes`, a finite map: looking up a type it
  does not hold fails;
- each registered sibling type's `name_join` and `paths`;
- the file locator `findfile`;
- the serialiser `option_list`, which turns an option map into tokens.

The last three items are total functions, so the model assumes that those
calls always return.

Python's exceptions on this path are modelled as `Result` failures, raised in
the same order as in the code:

- a name that does not decode;
- a task type missing from the registry;
- an `IndexError` on a dependency that lists no file;
- a `KeyError` on a missing wavelength option.

Files:
- `wrappers.dfy`: `Option` and `Result`.
- `decimal.dfy`: Python's `"{}".format(int)` and its inverse.
- `command_line.dfy`: `" ".join` and `str.split(" ")`.
- `options.dfy`: option values and the `dict.update` merge.
- `schema.dfy`: the column schema.
- `extract.dfy`: the task itself.

Three facts about the code shape the model:

- `spec` has the name format `"d"`, with no padding.
- `_option_list` does not read `_run_defaults`. It lays only the caller's
  runtime options over the computed paths, so a caller that wants the defaults
  passes them in through `opts`.
- `_deps` raises no error of its own when a field is missing. It passes the
  decoded fields to each sibling's `name_join`.

## Model

| member | source | states |
|---|---|---|
| Schema.ExtractDescriptor | py/desispec/pipeline/tasks/extract.py:29-46 | The extract schema is well formed. Every column has one type, no column repeats, `state` is an integer column, the name fields are distinct columns other than `state`, and each has one format that fits its column type. There are exactly 4 name fields and 4 formats, and every column except `state` is a name field. |
| Schema.ExtractColumnsWellFormed | py/desispec/pipeline/tasks/extract.py:30-43 | The five columns are distinct and have five types, and `state` is one of them with integer type. |
| Schema.ExtractNameFieldsWellFormed | py/desispec/pipeline/tasks/extract.py:44-45 | Every name field is a column, `state` is not a name field, and the name fields cover all other columns. |
| Schema.ExtractNameFormatsWellFormed | py/desispec/pipeline/tasks/extract.py:45-46 | Each name field has a format that fits its column's type: `s` for text and a `d` format for integers. |
| Decimal.NatToDecimal | py/desispec/pipeline/tasks/extract.py:52 | A natural number renders as a non-empty string of decimal digits with no leading zero: a rendering that starts with '0' is exactly "0", the rendering of 0. |
| Decimal.NatToDecimalRoundTrip | py/desispec/pipeline/tasks/extract.py:52 | Reading the rendered digits back gives the original number. |
| Decimal.IntToDecimal | py/desispec/pipeline/tasks/extract.py:52 | An integer renders as a leading '-' exactly when it is negative, and otherwise starts with a digit. The digits have no leading zero: a rendering that starts with '0' is exactly "0", the rendering of 0, so "007", "00" and "-0" never occur. |
| Decimal.IntToDecimalRoundTrip | py/desispec/pipeline/tasks/extract.py:52 | Parsing the rendered integer gives the original integer. |
| Extract.CameraKey | py/desispec/pipeline/tasks/extract.py:52 | The camera key is the band followed directly by the unpadded decimal rendering of the spectrograph number, which parses back to that number. |
| Extract.CameraKeyRoundTrip | py/desispec/pipeline/tasks/extract.py:52 | If the band has no digit or '-', splitting the camera key gives back the band and the spectrograph number. |
| Extract.CameraKeyInjective | py/desispec/pipeline/tasks/extract.py:52 | Two tasks whose bands have no digit and no '-' share a camera key only when they have the same band and spectrograph. |
| Extract.FrameQuery | py/desispec/pipeline/tasks/extract.py:53-55 | The locator is asked for a `frame` file. The query has the task's night, expid, band and spectrograph, and no group name or nside. Its camera is the camera key of that band and spectrograph, and for a band with no digit or '-' it decodes back to them. |
| Extract.Paths | py/desispec/pipeline/tasks/extract.py:48-55 | A task produces exactly one file: the located frame of its decoded name. The only failure is a name that does not decode. |
| Extract.RegistryMissOrder | py/desispec/pipeline/tasks/extract.py:62-66 | A missing `pix` type is reported first, then a missing `fibermap`, then a missing `psfnight`, in the order the registry is read. |
| Extract.Deps | py/desispec/pipeline/tasks/extract.py:57-67 | The dependencies are exactly the roles `input`, `fibermap` and `psf`. Each is named by its own type (`pix`, `fibermap`, `psfnight`) from the same decoded identity. Deps fails when the name does not decode, or with the first of `pix`, `fibermap` and `psfnight` that is missing from the registry. |
| Extract.RunMaxProcs | py/desispec/pipeline/tasks/extract.py:69-72 | For every node size, at least one and exactly 20 processes (one per fiber bundle). |
| Extract.RunTime | py/desispec/pipeline/tasks/extract.py:75-78 | For every task and node size, the estimate is 15 minutes. |
| Extract.RunDefaults | py/desispec/pipeline/tasks/extract.py:81-91 | The defaults have exactly six keys: `regularize`, `nwavestep`, `verbose` and the three wavelength variants. The variants are three different text ranges. |
| Extract.CollapseWavelength | py/desispec/pipeline/tasks/extract.py:109-117 | Collapse succeeds iff the band's key and all three variants are present. Otherwise it fails on the first missing key, in the order the code reads and deletes them. On success, the result's keys are the caller's keys without the variants plus `wavelength`. `wavelength` holds the band's range, and every other key keeps its value. |
| Extract.CollapseDefaults | py/desispec/pipeline/tasks/extract.py:84-91 | For bands b, r and z, collapsing the defaults gives exactly the three scalar settings and `wavelength`, holding that band's literal range. |
| Extract.CollapseKeepsForeignVariant | py/desispec/pipeline/tasks/extract.py:112-116 | For a band other than b, r or z, the band's own key survives the collapse: only the three named variants are deleted. |
| Extract.DepPathOptions | py/desispec/pipeline/tasks/extract.py:104-106 | Each input option holds the first file listed by the dependency of that role. The step fails on the first role, in the order input, fibermap, psf, whose dependency lists no file. |
| Extract.PathOptions | py/desispec/pipeline/tasks/extract.py:102-107 | The paths are computed exactly when the name decodes, the three dependency types are registered and every dependency lists at least one file. The computed map has exactly the keys input, fibermap, psf and output. `output` is this task's frame file, and the input values come from the dependency step. Errors from the dependencies are passed on unchanged. |
| Extract.OptionMap | py/desispec/pipeline/tasks/extract.py:94-119 | Assembly fails exactly when the paths fail, or when the caller's options lack a key the collapse needs. It reports the first such key. On success, the final keys are the four path keys plus the collapsed caller keys, and `wavelength` holds the band's range. A caller's key wins even over a computed path, and a path the caller does not set is kept. |
| Extract.DefaultOptionMap | py/desispec/pipeline/tasks/extract.py:84-119 | With the defaults as runtime options and band b, r or z, the final map holds the four paths, the three scalar settings and only that band's wavelength range. |
| Extract.OptionList | py/desispec/pipeline/tasks/extract.py:94-120 | The token list fails exactly when option assembly fails, with the same error. On success it is the serialiser applied to the assembled map. |
| Extract.RunCli | py/desispec/pipeline/tasks/extract.py:122-128 | It fails exactly when option assembly fails. On success the command is `desi_extract_spectra`, one space, then the option tokens joined by single spaces. No tokens leave a trailing space, and non-empty space-free tokens split back out of the rest of the command. |
| Options.Merge | py/desispec/pipeline/tasks/extract.py:119 | The update keeps the keys of both maps, an override wins on a shared key, and every other base value is kept. |
| Options.FirstAbsent | py/desispec/pipeline/tasks/extract.py:113-116 | The reported key is the first key in access order that is absent, with every earlier key present. The result is None iff every key is present. |
| Options.FirstAbsentAt | py/desispec/pipeline/tasks/extract.py:113-116 | An absent key whose predecessors are all present is the key reported: the KeyError that the sequence of accesses raises. |
| CommandLine.JoinSpaces | py/desispec/pipeline/tasks/extract.py:127 | Joining no tokens gives the empty string, and joining one token gives that token. |
| CommandLine.SplitJoinRoundTrip | py/desispec/pipeline/tasks/extract.py:127 | Splitting a non-empty list of space-free tokens joined by single spaces gives the tokens back. |

## Left out

- Name encoding and decoding (`name_split`, `name_join`) live in `base.py`, which is not part of this model. The decoder is the `nameSplit` collaborator, and each sibling's `nameJoin` is a collaborator. The separator and field formatting are not modelled.
- `BaseTask.paths` and `BaseTask.deps` are assumed to delegate to `_paths` and `_deps` unchanged. `base.py` is not part of this model.
- `findfile` (in `io`) is the `findFile` collaborator. Its naming convention is not modelled.
- `option_list` (in `util`) is the `optionList` collaborator. Its token syntax and ordering are not modelled.
- Failures of the collaborators are not modelled. A sibling's `name_join` can raise on a missing field, its `paths` can raise on a dependency name it cannot decode, and `findfile` can raise. A raising `name_join` or `paths` would stop the code before the later registry lookups, IndexErrors and missing-wavelength KeyErrors that the model orders. A raising `findfile` (inside `self.paths(name)`, line 107) comes after the registry lookups and IndexErrors but before the missing-wavelength KeyErrors of lines 113-116. The model's collaborators are total functions, so the only failures it reports are an undecodable name, an unregistered dependency type, a dependency with no file and a missing wavelength option.
- Extract.OptionMap: the result is a map, so the insertion order of the Python dictionary, which reaches `option_list`, is lost. In the code, keys new to the dictionary are appended in order, and a key that is already present keeps its earlier position when it is overwritten.
- The caller's options are not modified (the code works on a deep copy). In the model this holds by construction, because maps are values, so no contract states it.
- `_run` dispatches to the external extraction routines, either single-process or under MPI. That is foreign code and concurrency.
- The `db` parameters of `_deps`, `_run_time`, `_run_cli` and `_run`, and the unused `inputs` parameter of `_deps`, are left out. The code ignores them here, and the persistence layer is not part of this model. The `procs` parameter of `_run_cli` is kept but, as in the code, unused.
- Registering task types in `task_classes` happens outside this file and is not modelled. Looking up a type the registry lacks raises `KeyError` (extract.py:63-65, 104-106), which the model reports as `UnknownTaskType`.
- Option values are treated as opaque. The float default `regularize = 0.0` is kept as its literal text.
- Extract.CameraKeyRoundTrip: only holds for bands without digits or '-'. The pipeline's bands b, r and z meet this, and the code makes no promise for other bands.

=== FILE: command_line.dfy ===
/** Python's `" ".join(tokens)` and its inverse `s.split(" ")`, used to state
    what a rendered command line holds. */
module CommandLine {

  predicate SpaceFree(t: string) {
    ' ' !in t
  }

  predicate AllSpaceFree(ts: seq<string>) {
    forall i :: 0 <= i < |ts| ==> SpaceFree(ts[i])
  }

  /** `" ".join(ts)`: the tokens with one space between neighbours; the empty
      list gives the empty string. */
  function JoinSpaces(ts: seq<string>): (s: string)
    ensures |ts| == 0 ==> s == ""
    ensures |ts| == 1 ==> s == ts[0]
  {
    if |ts| == 0 then ""
    else if |ts| == 1 then ts[0]
    else ts[0] + " " + JoinSpaces(ts[1..])
  }

  /** `s.split(" ")`: cuts at every single space, keeping empty pieces, so it
      always yields at least one piece. */
  function SplitSpaces(s: string): (parts: seq<string>)
    ensures 1 <= |parts|
    ensures AllSpaceFree(parts)
  {
    if |s| == 0 then [""]
    else
      var rest := SplitSpaces(s[1..]);
      if s[0] == ' ' then [""] + rest
      else [[s[0]] + rest[0]] + rest[1..]
  }

  /** A space-free prefix glues onto the first piece of what follows it. */
  lemma {:induction false} SplitSpaceFreePrefix(t: string, u: string)
    requires SpaceFree(t)
    ensures SplitSpaces(t + u) == [t + SplitSpaces(u)[0]] + SplitSpaces(u)[1..]
    decreases |t|
  {
    if |t| > 0 {
      var parts := SplitSpaces(u);
      assert (t + u)[1..] == t[1..] + u;
      assert (t + u)[0] == t[0] && t[0] in t;
      SplitSpaceFreePrefix(t[1..], u);
      var rest := SplitSpaces(t[1..] + u);
      assert rest == [t[1..] + parts[0]] + parts[1..];
      assert SplitSpaces(t + u) == [[t[0]] + rest[0]] + rest[1..];
      assert [t[0]] + (t[1..] + parts[0]) == t + parts[0];
    } else {
      var parts := SplitSpaces(u);
      assert t + u == u;
      assert t + parts[0] == parts[0];
      assert [parts[0]] + parts[1..] == parts;
    }
  }

  /** Splitting a joined list of space-free tokens gives the tokens back. */
  lemma {:induction false} SplitJoinRoundTrip(ts: seq<string>)
    requires 1 <= |ts|
    requires AllSpaceFree(ts)
    ensures SplitSpaces(JoinSpaces(ts)) == ts
    decreases |ts|
  {
    if |ts| == 1 {
      SplitSpaceFreePrefix(ts[0], "");
      assert ts[0] + "" == ts[0];
    } else {
      var rest := JoinSpaces(ts[1..]);
      assert ts[0] + " " + rest == ts[0] + (" " + rest);
      SplitSpaceFreePrefix(ts[0], " " + rest);
      assert (" " + rest)[1..] == rest;
      assert SplitSpaces(" " + rest) == [""] + SplitSpaces(rest);
      SplitJoinRoundTrip(ts[1..]);
      assert ts[0] + "" == ts[0];
      assert ([""] + ts[1..])[1..] == ts[1..];
      assert [ts[0]] + ts[1..] == ts;
    }
  }

  /** The round trip, for any token list that meets its conditions. */
  lemma SplitJoinWhenSpaceFree(ts: seq<string>)
    ensures 1 <= |ts| && AllSpaceFree(ts) ==> SplitSpaces(JoinSpaces(ts)) == ts
  {
    if 1 <= |ts| && AllSpaceFree(ts) {
      SplitJoinRoundTrip(ts);
    }
  }
}

=== FILE: decimal.dfy ===
/** Python's rendering of an integer with `"{}".format(i)`: base ten, no
    leading zeros, a leading '-' for negative values. The parser is the
    inverse used to state that the rendering loses nothing. */
module Decimal {
  import opened Wrappers

  predicate IsDigit(c: char) {
    '0' <= c <= '9'
  }

  predicate AllDigits(s: string) {
    forall i :: 0 <= i < |s| ==> IsDigit(s[i])
  }

  function DigitValue(c: char): (d: nat)
    requires IsDigit(c)
    ensures d < 10
  {
    c as int - '0' as int
  }

  function DigitChar(d: nat): (c: char)
    requires d < 10
    ensures IsDigit(c) && DigitValue(c) == d
  {
    ('0' as int + d) as char
  }

  /** Decimal digits of `n`, most significant first. */
  function NatToDecimal(n: nat): (s: string)
    ensures 1 <= |s| && AllDigits(s)
    ensures s[0] == '0' ==> n == 0 && s == "0"
    decreases n
  {
    if n < 10 then [DigitChar(n)] else NatToDecimal(n / 10) + [DigitChar(n % 10)]
  }

  /** The number a string of decimal digits denotes. */
  function DecimalValue(s: string): nat
    requires AllDigits(s)
    decreases |s|
  {
    if |s| == 0 then 0 else DecimalValue(s[..|s| - 1]) * 10 + DigitValue(s[|s| - 1])
  }

  lemma {:induction false} NatToDecimalRoundTrip(n: nat)
    ensures DecimalValue(NatToDecimal(n)) == n
  {
    if n >= 10 {
      var p := NatToDecimal(n / 10);
      var s := p + [DigitChar(n % 10)];
      assert s[..|s| - 1] == p;
      NatToDecimalRoundTrip(n / 10);
    }
  }

  /** `"{}".format(i)` for a Python int. */
  function IntToDecimal(i: int): (s: string)
    ensures 1 <= |s|
    ensures s[0] == '-' <==> i < 0
    ensures IsDigit(s[0]) <==> 0 <= i
    ensures 0 <= i ==> AllDigits(s) && (s[0] == '0' ==> i == 0 && s == "0")
    ensures i < 0 ==> 2 <= |s| && AllDigits(s[1..]) && s[1] != '0'
  {
    if i < 0 then "-" + NatToDecimal(-i) else NatToDecimal(i)
  }

  /** Reads back an optional '-' followed by at least one digit. */
  function ParseInt(s: string): (r: Option<int>)
    ensures r.Some? ==> 1 <= |s|
  {
    if 2 <= |s| && s[0] == '-' && AllDigits(s[1..]) then Some(0 - DecimalValue(s[1..]) as int)
    else if 1 <= |s| && AllDigits(s) then Some(DecimalValue(s))
    else None
  }

  lemma IntToDecimalRoundTrip(i: int)
    ensures ParseInt(IntToDecimal(i)) == Some(i)
  {
    var s := IntToDecimal(i);
    if i < 0 {
      var digits := NatToDecimal(-i);
      assert s == "-" + digits;
      assert s[1..] == digits;
      NatToDecimalRoundTrip(-i);
      assert ParseInt(s) == Some(0 - DecimalValue(digits) as int);
    } else {
      assert s == NatToDecimal(i);
      NatToDecimalRoundTrip(i);
      assert s[0] != '-';
      assert ParseInt(s) == Some(DecimalValue(s));
    }
  }
}

=== FILE: extract.dfy ===
/** The extraction task type: the file it produces, the three tasks it
    depends on, its static resource estimates and default options, the
    assembly of its final option set and the command line that runs it.

    Everything the task calls but does not define is a field of `Env`:
    decoding a task name, which can reject the name; the registry of
    sibling task types, a finite map whose misses fail; and the siblings'
    name builders and file lists, the file-path locator and the
    serialisation of an option map into tokens, which are total functions
    and so are assumed never to raise. */
module Extract {
  import opened Wrappers
  import opened Options
  import Decimal
  import CommandLine

  /** The decoded name fields of one extraction task: the name fields of
      `Schema.ExtractSchema` in their declared order, with `band` its one
      text column and the others integer columns. */
  datatype Identity = Identity(night: int, band: string, spec: int, expid: int)

  /** The keyword arguments handed to the file locator for one frame. */
  datatype FileQuery = FileQuery(
    filetype: string,
    night: int,
    expid: int,
    camera: string,
    groupname: Option<string>,
    nside: Option<int>,
    band: string,
    spectrograph: int)

  /** A task type reached through the registry: how it names a task from a
      decoded identity, and the files a task of that type produces. */
  datatype Sibling = Sibling(nameJoin: Identity -> string, paths: string -> seq<string>)

  /** The collaborators: the name decoder of this type (`None` for a name it
      cannot decode), the file locator, the type registry, and the
      serialisation of an option map into command-line tokens. */
  datatype Env = Env(
    nameSplit: string -> Option<Identity>,
    findFile: FileQuery -> string,
    taskClasses: map<string, Sibling>,
    optionList: Options -> seq<string>)

  /** Why assembling the options stopped. */
  datatype Error =
    | MalformedName(name: string)                // the name does not decode
    | UnknownTaskType(typeName: string)          // missing from the registry
    | NoPath(typeName: string, depName: string)  // a dependency lists no file
    | MissingOption(key: string)                 // KeyError on the options

  function SplitName(env: Env, name: string): Result<Identity, Error> {
    match env.nameSplit(name)
    case Some(id) => Success(id)
    case None => Failure(MalformedName(name))
  }

  function Lookup(env: Env, typeName: string): Result<Sibling, Error> {
    if typeName in env.taskClasses then Success(env.taskClasses[typeName])
    else Failure(UnknownTaskType(typeName))
  }

  // ---------------------------------------------------------------------
  // Camera key and the output path

  /** Characters that can open the rendering of an integer. */
  predicate NumericStart(c: char) {
    Decimal.IsDigit(c) || c == '-'
  }

  /** A band label that no rendered number can be confused with. */
  predicate NumericFree(band: string) {
    forall i :: 0 <= i < |band| ==> !NumericStart(band[i])
  }

  /** `"{}{}".format(band, spec)`: the band followed directly by the decimal
      spectrograph number, with no separator. */
  function CameraKey(band: string, spec: int): (camera: string)
    ensures |band| < |camera|
    ensures camera[..|band|] == band
    ensures camera[|band|..] == Decimal.IntToDecimal(spec)
    ensures Decimal.ParseInt(camera[|band|..]) == Some(spec)
  {
    Decimal.IntToDecimalRoundTrip(spec);
    var camera := band + Decimal.IntToDecimal(spec);
    assert camera[..|band|] == band;
    assert camera[|band|..] == Decimal.IntToDecimal(spec);
    camera
  }

  /** Length of the longest prefix with no numeric character. */
  function FirstNumeric(s: string): (k: nat)
    ensures k <= |s|
    ensures forall i :: 0 <= i < k ==> !NumericStart(s[i])
    ensures k < |s| ==> NumericStart(s[k])
  {
    if |s| == 0 then 0
    else if NumericStart(s[0]) then 0
    else 1 + FirstNumeric(s[1..])
  }

  /** Reads a camera key back into its band and spectrograph number. */
  function SplitCamera(camera: string): Option<(string, int)> {
    var k := FirstNumeric(camera);
    match Decimal.ParseInt(camera[k..])
    case Some(n) => Some((camera[..k], n))
    case None => None
  }

  /** For a band free of digits and '-', the camera key loses nothing. */
  lemma CameraKeyRoundTrip(band: string, spec: int)
    requires NumericFree(band)
    ensures SplitCamera(CameraKey(band, spec)) == Some((band, spec))
  {
    var camera := CameraKey(band, spec);
    var k := FirstNumeric(camera);
    assert camera[|band|..] == Decimal.IntToDecimal(spec);
    assert NumericStart(camera[|band|]);
    assert k == |band|;
  }

  /** Two tasks with numeric-free bands share a camera key only when they
      share band and spectrograph. */
  lemma CameraKeyInjective(band1: string, spec1: int, band2: string, spec2: int)
    requires NumericFree(band1) && NumericFree(band2)
    requires CameraKey(band1, spec1) == CameraKey(band2, spec2)
    ensures band1 == band2 && spec1 == spec2
  {
    CameraKeyRoundTrip(band1, spec1);
    CameraKeyRoundTrip(band2, spec2);
  }

  /** The locator query for the frame file of task `id`. */
  function FrameQuery(id: Identity): (q: FileQuery)
    ensures q.filetype == "frame"
    ensures q.night == id.night && q.expid == id.expid
    ensures q.band == id.band && q.spectrograph == id.spec
    ensures q.groupname.None? && q.nside.None?
    ensures q.camera == CameraKey(id.band, id.spec)
    ensures NumericFree(id.band) ==> SplitCamera(q.camera) == Some((q.band, q.spectrograph))
  {
    var camera := CameraKey(id.band, id.spec);
    assert NumericFree(id.band) ==> SplitCamera(camera) == Some((id.band, id.spec)) by {
      if NumericFree(id.band) {
        CameraKeyRoundTrip(id.band, id.spec);
      }
    }
    FileQuery("frame", id.night, id.expid, camera, None, None, id.band, id.spec)
  }

  /** The files an extraction task produces: exactly one frame file, located
      from the decoded name. */
  function Paths(env: Env, name: string): (r: Result<seq<string>, Error>)
    ensures r.Success? <==> env.nameSplit(name).Some?
    ensures r.Failure? ==> r.error == MalformedName(name)
    ensures r.Success? ==> |r.value| == 1
    ensures r.Success? ==> r.value[0] == env.findFile(FrameQuery(env.nameSplit(name).value))
  {
    var id :- SplitName(env, name);
    Success([env.findFile(FrameQuery(id))])
  }

  // ---------------------------------------------------------------------
  // Dependencies

  /** The dependency roles, in the order they are resolved. */
  const RoleOrder: seq<string> := ["input", "fibermap", "psf"]

  const Roles: set<string> := {"input", "fibermap", "psf"}

  /** The registry entries consulted, in the order they are consulted. */
  const TypeOrder: seq<string> := ["pix", "fibermap", "psfnight"]

  /** The task type whose name fills each dependency role. */
  function DepType(role: string): (t: string)
    requires role in Roles
    ensures t in TypeOrder
  {
    if role == "input" then "pix"
    else if role == "fibermap" then "fibermap"
    else "psfnight"
  }

  /** Every task type the extraction task depends on is registered. */
  predicate Registered(env: Env) {
    "pix" in env.taskClasses && "fibermap" in env.taskClasses && "psfnight" in env.taskClasses
  }

  /** The registry lookups of `Deps` fail on the first unregistered type in
      `TypeOrder`. */
  lemma RegistryMissOrder(classes: set<string>)
    ensures "pix" !in classes ==> FirstAbsent(TypeOrder, classes) == Some("pix")
    ensures "pix" in classes && "fibermap" !in classes ==> FirstAbsent(TypeOrder, classes) == Some("fibermap")
    ensures "pix" in classes && "fibermap" in classes && "psfnight" !in classes ==>
              FirstAbsent(TypeOrder, classes) == Some("psfnight")
  {
    if "pix" !in classes {
      FirstAbsentAt(TypeOrder, classes, 0);
    } else if "fibermap" !in classes {
      FirstAbsentAt(TypeOrder, classes, 1);
    } else if "psfnight" !in classes {
      FirstAbsentAt(TypeOrder, classes, 2);
    }
  }

  /** The names of the three tasks this task needs, each built by its own
      type from this task's decoded name fields. */
  function Deps(env: Env, name: string): (r: Result<map<string, string>, Error>)
    ensures r.Success? <==> env.nameSplit(name).Some? && Registered(env)
    ensures env.nameSplit(name).None? ==> r == Failure(MalformedName(name))
    ensures env.nameSplit(name).Some? && r.Failure? ==>
              FirstAbsent(TypeOrder, env.taskClasses.Keys).Some? &&
              r.error == UnknownTaskType(FirstAbsent(TypeOrder, env.taskClasses.Keys).value)
    ensures r.Success? ==> r.value.Keys == Roles
    ensures r.Success? ==> forall role :: role in r.value ==>
              r.value[role] == env.taskClasses[DepType(role)].nameJoin(env.nameSplit(name).value)
  {
    RegistryMissOrder(env.taskClasses.Keys);
    var id :- SplitName(env, name);
    var pix :- Lookup(env, "pix");
    var fibermap :- Lookup(env, "fibermap");
    var psfnight :- Lookup(env, "psfnight");
    Success(map["input" := pix.nameJoin(id), "fibermap" := fibermap.nameJoin(id), "psf" := psfnight.nameJoin(id)])
  }

  // ---------------------------------------------------------------------
  // Resource estimates and defaults

  /** Fiber bundles per camera: the most processes one extraction can use. */
  const BundlesPerCamera := 20

  /** Estimated minutes of one extraction. */
  const ExtractMinutes := 15

  function RunMaxProcs(procsPerNode: int): (n: nat)
    ensures 1 <= n
    ensures n == BundlesPerCamera
  {
    20
  }

  function RunTime(name: string, procsPerNode: int): (minutes: nat)
    ensures 1 <= minutes
    ensures minutes == ExtractMinutes
  {
    15
  }

  /** The per-band wavelength option keys. */
  const VariantKeys: set<string> := {"wavelength_b", "wavelength_r", "wavelength_z"}

  /** The key holding the wavelength range of `band`. */
  function WavelengthKey(band: string): string {
    "wavelength_" + band
  }

  /** The default options that are not per-band. */
  const ScalarKeys: set<string> := {"regularize", "nwavestep", "verbose"}

  /** The default options: three scalar settings and one wavelength range
      for each of the bands b, r and z. */
  function RunDefaults(): (d: Options)
    ensures d.Keys == ScalarKeys + VariantKeys
    ensures d.Keys - VariantKeys == ScalarKeys
    ensures forall k :: k in VariantKeys ==> d[k].Text?
    ensures d["wavelength_b"] != d["wavelength_r"] && d["wavelength_r"] != d["wavelength_z"]
    ensures d["wavelength_b"] != d["wavelength_z"]
  {
    map[
      "regularize" := Float("0.0"),
      "nwavestep" := Int(50),
      "verbose" := Bool(false),
      "wavelength_b" := Text("3579.0,5939.0,0.8"),
      "wavelength_r" := Text("5635.0,7731.0,0.8"),
      "wavelength_z" := Text("7445.0,9824.0,0.8")]
  }

  // ---------------------------------------------------------------------
  // Option assembly

  /** The keys collapsing reads or deletes, in the order it touches them. */
  function CollapseOrder(band: string): seq<string> {
    [WavelengthKey(band), "wavelength_b", "wavelength_r", "wavelength_z"]
  }

  /** Replaces the three per-band wavelength keys by a single `wavelength`
      key holding the range of `band`. Reading the band's key and deleting
      each variant are the dictionary accesses that fail when a key is
      absent, in this order. */
  function CollapseWavelength(opts: Options, band: string): (r: Result<Options, Error>)
    ensures r.Success? <==> WavelengthKey(band) in opts && VariantKeys <= opts.Keys
    ensures r.Failure? ==> var missing := FirstAbsent(CollapseOrder(band), opts.Keys);
              missing.Some? && r.error == MissingOption(missing.value)
    ensures r.Success? ==> r.value.Keys == (opts.Keys - VariantKeys) + {"wavelength"}
    ensures r.Success? ==> r.value["wavelength"] == opts[WavelengthKey(band)]
    ensures r.Success? ==> forall k :: k in opts && k !in VariantKeys && k != "wavelength" ==> r.value[k] == opts[k]
  {
    var wkey := WavelengthKey(band);
    var order := CollapseOrder(band);
    if wkey !in opts then
      FirstAbsentAt(order, opts.Keys, 0);
      Failure(MissingOption(wkey))
    else if "wavelength_b" !in opts then
      FirstAbsentAt(order, opts.Keys, 1);
      Failure(MissingOption("wavelength_b"))
    else if "wavelength_r" !in opts then
      FirstAbsentAt(order, opts.Keys, 2);
      Failure(MissingOption("wavelength_r"))
    else if "wavelength_z" !in opts then
      FirstAbsentAt(order, opts.Keys, 3);
      Failure(MissingOption("wavelength_z"))
    else
      var wave := opts[wkey];
      Success((opts - VariantKeys)["wavelength" := wave])
  }

  /** For each band of the instrument, collapsing the defaults keeps the
      three scalar settings and exactly that band's range. */
  lemma CollapseDefaults(band: string)
    requires band in {"b", "r", "z"}
    ensures WavelengthKey(band) in VariantKeys
    ensures CollapseWavelength(RunDefaults(), band) == Success(map[
              "regularize" := Float("0.0"),
              "nwavestep" := Int(50),
              "verbose" := Bool(false),
              "wavelength" := RunDefaults()[WavelengthKey(band)]])
    ensures band == "b" ==> RunDefaults()[WavelengthKey(band)] == Text("3579.0,5939.0,0.8")
    ensures band == "r" ==> RunDefaults()[WavelengthKey(band)] == Text("5635.0,7731.0,0.8")
    ensures band == "z" ==> RunDefaults()[WavelengthKey(band)] == Text("7445.0,9824.0,0.8")
  {
    assert WavelengthKey("b") == "wavelength_b";
    assert WavelengthKey("r") == "wavelength_r";
    assert WavelengthKey("z") == "wavelength_z";
    var d := RunDefaults();
    var r := CollapseWavelength(d, band);
    var expected := map[
      "regularize" := Float("0.0"),
      "nwavestep" := Int(50),
      "verbose" := Bool(false),
      "wavelength" := d[WavelengthKey(band)]];
    assert r.Success?;
    assert r.value.Keys == expected.Keys;
    assert r.value["regularize"] == d["regularize"] == expected["regularize"];
    assert r.value["nwavestep"] == d["nwavestep"] == expected["nwavestep"];
    assert r.value["verbose"] == d["verbose"] == expected["verbose"];
    assert r.value == expected;
  }

  /** A band other than b, r and z keeps its own variant key beside the
      collapsed `wavelength`: only the three named variants are removed. */
  lemma CollapseKeepsForeignVariant(opts: Options, band: string)
    requires band !in {"b", "r", "z"}
    requires CollapseWavelength(opts, band).Success?
    ensures WavelengthKey(band) in CollapseWavelength(opts, band).value
  {
    var wkey := WavelengthKey(band);
    assert wkey[..11] == "wavelength_";
    assert wkey[11..] == band;
    assert wkey !in VariantKeys by {
      assert "wavelength_b"[11..] == "b";
      assert "wavelength_r"[11..] == "r";
      assert "wavelength_z"[11..] == "z";
    }
    assert |wkey| != |"wavelength"|;
  }

  /** The keys the computed file paths occupy. */
  const PathKeys: set<string> := {"input", "fibermap", "psf", "output"}

  /** A dependency map as `Deps` builds it against this registry. */
  predicate Resolvable(env: Env, deps: map<string, string>) {
    Registered(env) && deps.Keys == Roles
  }

  /** The files the dependency filling `role` produces. */
  function RoleFiles(env: Env, deps: map<string, string>, role: string): seq<string>
    requires Resolvable(env, deps) && role in Roles
  {
    env.taskClasses[DepType(role)].paths(deps[role])
  }

  /** The roles whose dependency task lists at least one file. */
  function LocatedRoles(env: Env, deps: map<string, string>): set<string>
    requires Resolvable(env, deps)
  {
    (if 1 <= |RoleFiles(env, deps, "input")| then {"input"} else {})
    + (if 1 <= |RoleFiles(env, deps, "fibermap")| then {"fibermap"} else {})
    + (if 1 <= |RoleFiles(env, deps, "psf")| then {"psf"} else {})
  }

  /** The input path options: under each role, the first file its dependency
      produces. Taking the first file of an empty list is the IndexError the
      first role without files raises. */
  function DepPathOptions(env: Env, deps: map<string, string>): (r: Result<Options, Error>)
    requires Resolvable(env, deps)
    ensures r.Success? <==> LocatedRoles(env, deps) == Roles
    ensures r.Failure? ==>
              var missing := FirstAbsent(RoleOrder, LocatedRoles(env, deps));
              && missing.Some? && missing.value in Roles
              && r.error == NoPath(DepType(missing.value), deps[missing.value])
    ensures r.Success? ==> r.value.Keys == Roles
    ensures r.Success? ==> forall role :: role in Roles ==>
              var files := RoleFiles(env, deps, role);
              1 <= |files| && r.value[role] == Text(files[0])
  {
    var located := LocatedRoles(env, deps);
    var input := RoleFiles(env, deps, "input");
    var fibermap := RoleFiles(env, deps, "fibermap");
    var psf := RoleFiles(env, deps, "psf");
    if |input| == 0 then
      FirstAbsentAt(RoleOrder, located, 0);
      Failure(NoPath("pix", deps["input"]))
    else if |fibermap| == 0 then
      FirstAbsentAt(RoleOrder, located, 1);
      Failure(NoPath("fibermap", deps["fibermap"]))
    else if |psf| == 0 then
      FirstAbsentAt(RoleOrder, located, 2);
      Failure(NoPath("psfnight", deps["psf"]))
    else
      Success(map["input" := Text(input[0]), "fibermap" := Text(fibermap[0]), "psf" := Text(psf[0])])
  }

  /** The name decodes, its dependency types are registered, and each
      dependency lists at least one file: the computed paths exist. */
  predicate Locatable(env: Env, name: string) {
    Deps(env, name).Success? && LocatedRoles(env, Deps(env, name).value) == Roles
  }

  /** The four computed path options: the three input options and this
      task's own frame file as `output`. */
  function PathOptions(env: Env, name: string): (r: Result<Options, Error>)
    ensures r.Success? <==> Locatable(env, name)
    ensures r.Success? ==> r.value.Keys == PathKeys
    ensures r.Success? ==> env.nameSplit(name).Some?
    ensures r.Success? ==> r.value["output"] == Text(env.findFile(FrameQuery(env.nameSplit(name).value)))
    ensures Deps(env, name).Failure? ==> r == Failure(Deps(env, name).error)
    ensures Deps(env, name).Success? ==>
              var inputs := DepPathOptions(env, Deps(env, name).value);
              && (inputs.Failure? ==> r == Failure(inputs.error))
              && (inputs.Success? ==>
                    && r.Success?
                    && inputs.value.Keys == Roles
                    && forall role :: role in Roles ==> r.value[role] == inputs.value[role])
  {
    match Deps(env, name)
    case Failure(e) => Failure(e)
    case Success(deps) =>
      assert Resolvable(env, deps);
      match DepPathOptions(env, deps)
      case Failure(e) =>
        assert LocatedRoles(env, deps) != Roles;
        Failure(e)
      case Success(inputs) =>
        assert LocatedRoles(env, deps) == Roles;
        var output := Text(env.findFile(FrameQuery(env.nameSplit(name).value)));
        OutputIsNotARole();
        Success(inputs["output" := output])
  }

  /** The task's own file key differs from every dependency role. */
  lemma OutputIsNotARole()
    ensures "output" !in Roles
  {
    assert |"output"| == 6;
  }

  /** The collapsed wavelength key differs from every path key. */
  lemma CollapsedKeyIsNotAPath()
    ensures "wavelength" !in PathKeys
  {
    assert |"wavelength"| == 10;
  }

  /** The final option map: the computed paths overlaid by the caller's
      options after their wavelength variants are collapsed to the task's
      band. It fails exactly when the paths fail or the caller's options
      lack a key the collapse reads or deletes. The caller's map is a value
      and stays as it was. */
  function OptionMap(env: Env, name: string, opts: Options): (r: Result<Options, Error>)
    ensures r.Success? ==> PathOptions(env, name).Success?
    ensures PathOptions(env, name).Failure? ==> r == Failure(PathOptions(env, name).error)
    ensures PathOptions(env, name).Success? ==>
              var band := env.nameSplit(name).value.band;
              && (r.Success? <==> WavelengthKey(band) in opts && VariantKeys <= opts.Keys)
              && (r.Failure? ==> var missing := FirstAbsent(CollapseOrder(band), opts.Keys);
                    missing.Some? && r.error == MissingOption(missing.value))
    ensures r.Success? ==>
              var band := env.nameSplit(name).value.band;
              && r.value.Keys == PathKeys + (opts.Keys - VariantKeys) + {"wavelength"}
              && r.value["wavelength"] == opts[WavelengthKey(band)]
              && (forall k :: k in opts && k !in VariantKeys && k != "wavelength" ==> r.value[k] == opts[k])
              && (forall k :: k in PathKeys && k !in opts ==> r.value[k] == PathOptions(env, name).value[k])
  {
    match PathOptions(env, name)
    case Failure(e) => Failure(e)
    case Success(paths) =>
      var band := env.nameSplit(name).value.band;
      match CollapseWavelength(opts, band)
      case Failure(e) => Failure(e)
      case Success(collapsed) =>
        MergeOverCollapsed(paths, collapsed, opts, WavelengthKey(band));
        Success(Merge(paths, collapsed))
  }

  /** The merge step of `OptionMap`, on plain maps: computed
      paths under a collapsed copy of the caller's options. */
  lemma MergeOverCollapsed(paths: Options, collapsed: Options, opts: Options, wkey: string)
    requires paths.Keys == PathKeys && wkey in opts
    requires collapsed.Keys == (opts.Keys - VariantKeys) + {"wavelength"}
    requires collapsed["wavelength"] == opts[wkey]
    requires forall k :: k in opts && k !in VariantKeys && k != "wavelength" ==> collapsed[k] == opts[k]
    ensures var r := Merge(paths, collapsed);
              && r.Keys == PathKeys + (opts.Keys - VariantKeys) + {"wavelength"}
              && r["wavelength"] == opts[wkey]
              && (forall k :: k in opts && k !in VariantKeys && k != "wavelength" ==> r[k] == opts[k])
              && (forall k :: k in PathKeys && k !in opts ==> r[k] == paths[k])
  {
    CollapsedKeyIsNotAPath();
  }

  /** With the defaults as runtime options, the final map holds the four
      paths, the three scalar defaults and only the task's own band range. */
  lemma DefaultOptionMap(env: Env, name: string)
    requires Locatable(env, name)
    requires env.nameSplit(name).value.band in {"b", "r", "z"}
    ensures var r := OptionMap(env, name, RunDefaults());
              && r.Success?
              && r.value.Keys == PathKeys + ScalarKeys + {"wavelength"}
              && WavelengthKey(env.nameSplit(name).value.band) in RunDefaults()
              && r.value["wavelength"] == RunDefaults()[WavelengthKey(env.nameSplit(name).value.band)]
  {
    var d := RunDefaults();
    var band := env.nameSplit(name).value.band;
    CollapseDefaults(band);
    assert WavelengthKey(band) in d && VariantKeys <= d.Keys;
    var r := OptionMap(env, name, d);
    assert r.Success?;
  }

  // ---------------------------------------------------------------------
  // Command line

  /** The executable that performs the extraction. */
  const Entry := "desi_extract_spectra"

  /** The option map serialised into tokens by the collaborator. */
  function OptionList(env: Env, name: string, opts: Options): (r: Result<seq<string>, Error>)
    ensures r.Success? <==> OptionMap(env, name, opts).Success?
    ensures r.Failure? ==> r.error == OptionMap(env, name, opts).error
    ensures r.Success? ==> r.value == env.optionList(OptionMap(env, name, opts).value)
  {
    var m :- OptionMap(env, name, opts);
    Success(env.optionList(m))
  }

  /** The command line: the executable, one space, then the option tokens
      joined by single spaces. Space-free tokens can be read back from it. */
  function RunCli(env: Env, name: string, opts: Options, procs: int): (r: Result<string, Error>)
    ensures r.Success? <==> OptionMap(env, name, opts).Success?
    ensures r.Failure? ==> r.error == OptionMap(env, name, opts).error
    ensures r.Success? ==>
              var tokens := env.optionList(OptionMap(env, name, opts).value);
              && |Entry| + 1 <= |r.value|
              && r.value[..|Entry| + 1] == Entry + " "
              && r.value[|Entry| + 1..] == CommandLine.JoinSpaces(tokens)
              && (|tokens| == 0 ==> r.value == Entry + " ")
              && (1 <= |tokens| && CommandLine.AllSpaceFree(tokens) ==>
                    CommandLine.SplitSpaces(r.value[|Entry| + 1..]) == tokens)
  {
    var tokens :- OptionList(env, name, opts);
    var command := Entry + " " + CommandLine.JoinSpaces(tokens);
    assert command[..|Entry| + 1] == Entry + " ";
    assert command[|Entry| + 1..] == CommandLine.JoinSpaces(tokens);
    CommandLine.SplitJoinWhenSpaceFree(tokens);
    Success(command)
  }
}

=== FILE: options.dfy ===
/** Option dictionaries: string keys mapped to values the task layer never
    interprets, and the `dict.update` merge that layers one over another. */
module Options {
  import opened Wrappers

  /** An option value. The task layer forwards values without reading them,
      so the float default is kept as its literal text. */
  datatype Value =
    | Float(literal: string)
    | Int(i: int)
    | Bool(b: bool)
    | Text(s: string)

  type Options = map<string, Value>

  /** `base.update(overrides)` on a copy of `base`: every key of either map
      survives, and on a shared key the override wins. */
  function Merge(base: Options, overrides: Options): (r: Options)
    ensures r.Keys == base.Keys + overrides.Keys
    ensures forall k :: k in overrides ==> r[k] == overrides[k]
    ensures forall k :: k in base && k !in overrides ==> r[k] == base[k]
  {
    base + overrides
  }

  /** The first key of `order` that `present` lacks: the key a sequence of
      Python dictionary accesses in that order raises KeyError on. */
  function FirstAbsent(order: seq<string>, present: set<string>): (k: Option<string>)
    ensures k.None? <==> forall i :: 0 <= i < |order| ==> order[i] in present
    ensures k.Some? ==> exists j :: 0 <= j < |order| && order[j] == k.value
                          && k.value !in present
                          && forall i :: 0 <= i < j ==> order[i] in present
  {
    if |order| == 0 then None
    else if order[0] !in present then Some(order[0])
    else
      var rest := FirstAbsent(order[1..], present);
      if rest.Some? then
        ghost var j :| 0 <= j < |order| - 1 && order[1..][j] == rest.value
                       && rest.value !in present
                       && forall i :: 0 <= i < j ==> order[1..][i] in present;
        assert order[j + 1] == rest.value;
        rest
      else rest
  }

  /** The first absent key is pinned down by its position: an absent key
      with every key before it present is the one reported. */
  lemma {:induction false} FirstAbsentAt(order: seq<string>, present: set<string>, j: nat)
    requires j < |order| && order[j] !in present
    requires forall i :: 0 <= i < j ==> order[i] in present
    ensures FirstAbsent(order, present) == Some(order[j])
  {
    if j > 0 {
      assert order[0] in present;
      FirstAbsentAt(order[1..], present, j - 1);
    }
  }
}

=== FILE: schema.dfy ===
/** The persisted-column schema of a task type: its columns, their SQL-like
    types, and the ordered identity ("name") fields with their formats. */
module Schema {

  datatype ColType = Integer | Text

  datatype Descriptor = Descriptor(
    typeName: string,
    cols: seq<string>,
    colTypes: seq<ColType>,
    nameFields: seq<string>,
    nameFormats: seq<string>)

  /** A Python format spec fits a column type: "s" for text, "d" or a
      zero-padded width such as "08d" for integers. */
  predicate FormatFits(fmt: string, t: ColType) {
    match t
    case Text => fmt == "s"
    case Integer => 1 <= |fmt| && fmt[|fmt| - 1] == 'd'
  }

  predicate Distinct(s: seq<string>) {
    forall i, j :: 0 <= i < j < |s| ==> s[i] != s[j]
  }

  /** Column `c` is declared with type `t`. */
  predicate HasType(d: Descriptor, c: string, t: ColType) {
    forall j :: 0 <= j < |d.cols| && j < |d.colTypes| && d.cols[j] == c ==> d.colTypes[j] == t
  }

  /** One type per column, no column twice, and an integer `state` column:
      the only column a task's lifetime changes. */
  predicate ColumnsWellFormed(d: Descriptor) {
    && |d.cols| == |d.colTypes|
    && Distinct(d.cols)
    && "state" in d.cols
    && HasType(d, "state", Integer)
  }

  /** The identity fields are distinct columns other than `state`. */
  predicate NameFieldsWellFormed(d: Descriptor) {
    && Distinct(d.nameFields)
    && (forall f :: f in d.nameFields ==> f in d.cols)
    && "state" !in d.nameFields
  }

  /** One format per identity field, fitting the field's column type. */
  predicate NameFormatsWellFormed(d: Descriptor) {
    && |d.nameFormats| == |d.nameFields|
    && (forall i, j ::
          0 <= i < |d.nameFields| && 0 <= j < |d.cols| && j < |d.colTypes| && d.cols[j] == d.nameFields[i] ==>
            FormatFits(d.nameFormats[i], d.colTypes[j]))
  }

  /** What every task type's schema must satisfy. */
  predicate WellFormed(d: Descriptor) {
    ColumnsWellFormed(d) && NameFieldsWellFormed(d) && NameFormatsWellFormed(d)
  }

  const ExtractSchema: Descriptor := Descriptor(
    "extract",
    ["night", "band", "spec", "expid", "state"],
    [Integer, Text, Integer, Integer, Integer],
    ["night", "band", "spec", "expid"],
    ["08d", "s", "d", "08d"])

  lemma ExtractColumnsWellFormed()
    ensures ColumnsWellFormed(ExtractSchema)
  {
    assert ExtractSchema.cols[4] == "state";
  }

  lemma ExtractNameFieldsWellFormed()
    ensures NameFieldsWellFormed(ExtractSchema)
    ensures forall c :: c in ExtractSchema.cols && c != "state" ==> c in ExtractSchema.nameFields
  {
    var d := ExtractSchema;
    assert d.cols[0] == d.nameFields[0] && d.cols[1] == d.nameFields[1];
    assert d.cols[2] == d.nameFields[2] && d.cols[3] == d.nameFields[3];
  }

  lemma ExtractNameFormatsWellFormed()
    ensures NameFormatsWellFormed(ExtractSchema)
  {
    var d := ExtractSchema;
    forall i, j | 0 <= i < |d.nameFields| && 0 <= j < |d.cols| && j < |d.colTypes| && d.cols[j] == d.nameFields[i]
      ensures FormatFits(d.nameFormats[i], d.colTypes[j])
    {
      ExtractColumnsWellFormed();
      assert d.cols[i] == d.nameFields[i];
    }
  }

  /** The schema of the extraction task type: well formed, with four
      identity fields that are all of its columns except `state`. */
  function ExtractDescriptor(): (d: Descriptor)
    ensures WellFormed(d)
    ensures d.typeName == "extract"
    ensures |d.nameFields| == |d.nameFormats| == 4
    ensures forall c :: c in d.cols && c != "state" ==> c in d.nameFields
  {
    ExtractColumnsWellFormed();
    ExtractNameFieldsWellFormed();
    ExtractNameFormatsWellFormed();
    ExtractSchema
  }
}

=== FILE: wrappers.dfy ===
/** Failure-compatible datatypes used to model Python's raised exceptions
    (KeyError, IndexError, a name that does not decode) as ordinary values. */
module Wrappers {

  /** A value that may be absent. */
  datatype Option<+T> = None | Some(value: T)

  /** Either a computed value or the error that stopped the computation;
      usable with `:-`. */
  datatype Result<+T, +E> = Success(value: T) | Failure(error: E) {

    predicate IsFailure() {
      Failure?
    }

    function PropagateFailure<U>(): Result<U, E>
      requires Failure?
    {
      Failure(error)
    }

    function Extract(): T
      requires Success?
    {
      value
    }
  }
}
